=== FILE: README.md ===
# user-config: the key/value config stores and their commit-or-rollback `Set`

This project models the in-memory part of the `userConfig` / `homeConfig`
packages: the stores that keep an application's settings in memory; the
general and addon stores write them to `<path>/<name>.conf`.

- `GeneralConfig` (`general_config.dfy`): a flat `Values` map and a
  `ConfigFiles` registry of additional config file names. Both are persisted
  together; `Name` and `Path` never are. `Set` writes the new value, saves, and
  on a failed save writes the old value back.
- `AddonConfig` (`addon_config.dfy`): a two-level map `category -> key -> value`
  with the same `Set` protocol. It creates the inner map of a new category on
  demand. Its `Save` writes an empty file and its `Load` only checks that the
  file can be read.
- The older `homeConfig.Config` (`home_config.dfy`): a list of `ConfigFile`
  records. `Set`/`Get` act on the first record named `<name>.conf`. `Load`
  empties both collections before it validates anything.

The shared pieces are Go's white space and `strings.TrimSpace` (`text.dfy`),
the full-path composition and its inverse (`paths.dfy`), and the errors
(`errors.dfy`). Reading, writing and probing a file go through a
`FileSystem` object (`files.dfy`). It holds the decoded content of each file
that exists and the set of paths where a write fails. A save either records the
new document at the store's path or fails and leaves every file as it was. So
the outcome of each `Set` is fixed by that state, and its contract states the
exact new state in both cases.

The model follows the code on these points:
- A failed `Set` of a key that was absent leaves the key mapped to `""`; it is
  not removed again (general_config.go:85,88 and addon_config.go:86,89).
- `NewGeneralConfig` and `NewAddonConfig` do not reject a blank name or path
  up front. When no file exists they first save, to `<path>/<name>.conf` even
  when the name is blank, and only the following `Load` reports the blank name. The store is
  returned even then.
- A second `Load` of a general config adds the decoded values to the map it
  holds; a key the file lacks stays (general_config.go:67).
- The not-found error of the home `Config` says `<name>.config file`, while the
  record it looks for is `<name>.conf` (home_config.go:41,46).
- No typed accessors, `DeleteKey` or `GetKeyList` exist in these files, so none
  are modelled.

## Model

| member | source | states |
|---|---|---|
| `Text.LeadingSpace` | general_config.go:58 | The count of leading characters that `TrimSpace` cuts: all of them are white space, and the next character, if any, is not |
| `Text.TrailingSpace` | general_config.go:58 | The count of trailing characters that `TrimSpace` cuts: all of them are white space, and the one before them, if any, is not |
| `Text.TrimSpace` | general_config.go:58 | The result is the slice of the input after its leading white space, and what follows the result is white space too; a non-empty result starts and ends with a non-space |
| `Text.TrimSpaceEmptyIff` | general_config.go:58 | `TrimSpace(s) == ""` holds exactly when every character of `s` is white space, in both directions |
| `Paths.FullPathShape` | general_config.go:100-102 | The full path is the directory, a slash, the name and `.conf`, with nothing else |
| `Paths.NameOfFullPath` | general_config.go:100-102 | The name is recovered from the full path of a known directory |
| `Paths.FullPathOfName` | general_config.go:100-102 | Every path that lies in the directory and ends in `.conf` is the full path of its name part |
| `Paths.InvalidConfigFileNameMessage` | general_config.go:59 | The message of a refused load is `Invalid ConfigFile Name: <dir>/<name>.conf` |
| `Paths.FullPathInjective` | general_config.go:100-102 | Within one directory, two names with the same full path are equal |
| `Files.FileSystem.Exists` | general_config.go:32 | `os.Stat` finds a file exactly when the path holds one |
| `Files.FileSystem.ReadFile` | general_config.go:63-66 | Reading succeeds exactly when the file exists and gives its content; otherwise it fails naming the path |
| `Files.FileSystem.WriteFile` | general_config.go:79 | A write to a writable path replaces that file's content; a write elsewhere fails and leaves every file as it was |
| `GeneralConfigFile.LoadOutcome` | general_config.go:57-71 | A blank name or path gives the invalid-name error and changes nothing; success needs both non-blank and the file present; in the model every failure, a malformed file included, leaves the fields as they were; no key of `Values` is ever lost |
| `GeneralConfigFile.LoadAfterSave` | general_config.go:67-79 | What one store saves, any store with the same non-blank name and path loads back: the saved registry, every saved value, and every key only it held, and nothing else; a store with an empty map gets exactly the saved map |
| `GeneralConfigFile.LoadTwice` | general_config.go:57-71 | Loading again right after a load leaves the error, the registry and the map as the first load left them, so a store fresh from `NewGeneralConfig` is unchanged by another `Load` |
| `GeneralConfigFile.GeneralConfig.constructor` | general_config.go:25-27 | The given name and path with an empty registry and an empty map |
| `GeneralConfigFile.GeneralConfig.NewGeneralConfig` | general_config.go:24-41 | Empty store; when no file exists it saves an empty document first and stops on a failed save; then it loads; the store is returned in every case |
| `GeneralConfigFile.GeneralConfig.GetName` | general_config.go:47-49 | Returns the store's name |
| `GeneralConfigFile.GeneralConfig.GetPath` | general_config.go:52-54 | Returns the store's directory |
| `GeneralConfigFile.GeneralConfig.GetFullPath` | general_config.go:100-102 | The store's file is `FullPath(Path, Name)`, whose shape `Paths.FullPathShape` gives |
| `GeneralConfigFile.GeneralConfig.Load` | general_config.go:57-71 | The error and the new registry and map are `LoadOutcome` of the old state (decoded values added to the old map); name and path are never written |
| `GeneralConfigFile.GeneralConfig.Save` | general_config.go:74-80 | Succeeds exactly when the file is writable; then the file holds exactly the registry and the map, else no file changes |
| `GeneralConfigFile.GeneralConfig.Set` | general_config.go:84-92 | On a good save `Get(k) == v` and the file holds the new state; on a failed save the write error is returned, `k` is mapped to its old `Get` value ("" if absent) and no file changes; every other key and the registry are unchanged |
| `GeneralConfigFile.GeneralConfig.Get` | general_config.go:95-97 | The stored value, or "" for an absent key; reads only |
| `GeneralConfigFile.GeneralConfig.HasConfigFile` | general_config.go:109-116 | True exactly when the name occurs in the registry; changes nothing |
| `GeneralConfigFile.SetSurvivesRestart` | general_config.go:84-92 | After a successful `Set` on one store, a new store with the same name and path reads the value back |
| `AddonConfigFile.Lookup` | addon_config.go:96-101 | "" for an absent category, else the inner value, which is "" for an absent key |
| `AddonConfigFile.SetLeavesOtherEntries` | addon_config.go:83-89 | Writing one entry (creating its category if needed) makes it read the new value and leaves every other entry in every category reading as before |
| `AddonConfigFile.WriteEntry` | addon_config.go:83-89 | Creating a missing inner map and writing one entry (then writing it back) is a single update of the original two-level map |
| `AddonConfigFile.LoadOutcome` | addon_config.go:52-68 | A blank name or path gives the invalid-name error; otherwise success exactly when the file exists |
| `AddonConfigFile.AddonConfig.constructor` | addon_config.go:21-22 | The given name and path with no categories |
| `AddonConfigFile.AddonConfig.NewAddonConfig` | addon_config.go:20-37 | No categories, before and after; saves an empty file when none exists and stops on a failed save; then loads; the store is returned in every case |
| `AddonConfigFile.AddonConfig.GetName` | addon_config.go:42-44 | Returns the store's name |
| `AddonConfigFile.AddonConfig.GetPath` | addon_config.go:47-49 | Returns the store's directory |
| `AddonConfigFile.AddonConfig.GetFullPath` | addon_config.go:104-106 | The store's file is `FullPath(Path, Name)`, whose shape `Paths.FullPathShape` gives |
| `AddonConfigFile.AddonConfig.Load` | addon_config.go:52-68 | Returns `LoadOutcome`; it modifies nothing, so `Values` never changes |
| `AddonConfigFile.AddonConfig.Save` | addon_config.go:71-78 | Succeeds exactly when the file is writable; then the file is empty, else no file changes |
| `AddonConfigFile.AddonConfig.Set` | addon_config.go:82-93 | The category always ends up present; on a good save the entry reads `v`; on a failed save the error is returned, the entry reads its old value and the new inner map stays; nothing else changes |
| `AddonConfigFile.AddonConfig.Get` | addon_config.go:96-101 | The two-level zero-value read of `Lookup`; reads only |
| `HomeConfig.ConfigFile.constructor` | home_config.go:24-27 | A record with the given name and map, which may be nil (`None`), as in every record built outside the package |
| `HomeConfig.ConfigFile.Set` | home_config.go:60-62 | Needs a non-nil map (Go panics on a nil one); afterwards `Get(k) == v` and every other key is unchanged |
| `HomeConfig.ConfigFile.Get` | home_config.go:65-67 | The stored value, or "" for an absent key or a nil map |
| `HomeConfig.HomeMessages` | home_config.go:46 | The invalid-name and not-found messages; the latter names `<name>.config`, not the `<name>.conf` searched for |
| `HomeConfig.FirstNamed` | home_config.go:40-41 | The index of the first record with the name, or none exactly when no record has it |
| `HomeConfig.LoadOutcome` | home_config.go:75-95 | A blank name gives the invalid-name error; otherwise the directory check's result for `<dir>/<name>` when the directory is known, else no error |
| `HomeConfig.Config.constructor` | home_config.go:31 | A config with the name and no records |
| `HomeConfig.Config.NewConfig` | home_config.go:30-36 | Loads the new config; returns it with no records exactly when loading succeeds, and no config otherwise |
| `HomeConfig.Config.Set` | home_config.go:39-47 | With a `<name>.conf` record, only the first one's map gets `k := v` and no error (that record must hold a map, else Go panics); without one, the not-found error and no change |
| `HomeConfig.Config.Get` | home_config.go:50-57 | The first `<name>.conf` record's value for `k` with no error, or "" and the not-found error |
| `HomeConfig.Config.Load` | home_config.go:70-95 | Both collections are empty afterwards, on success and on failure; the error is `LoadOutcome` |

## Left out

- The TOML encoding and decoding: a file's content is its decoded `Document`: empty, encoded with its `additional_config` and `general` sections, or malformed. Decoding an encoded document replaces `ConfigFiles` and adds its entries to `Values`; a document that lacks one of the two sections is not distinguished from one where it is empty.
- `HomeConfig.ConfigFile.Set` and `HomeConfig.Config.Set`: the panic of an assignment into a nil map is not modelled as an outcome; both require the record to hold a map.
- `GeneralConfigFile.GeneralConfig.constructor` and `AddonConfigFile.AddonConfig.constructor`: they model the literals inside `NewGeneralConfig` and `NewAddonConfig`, which make the `Values` map; a bare `GeneralConfig{}` or `AddonConfig{}` literal has a nil map, on which `Set` panics (general_config.go:86, addon_config.go:84), and is not modelled.
- `GeneralConfigFile.LoadOutcome`: Go decodes straight into the live store (general_config.go:67), so a file that parses but does not fit the struct may leave `ConfigFiles` or `Values` partly written when `Load` returns the error; the model's `Malformed` document changes neither field.
- `Files.FileSystem.ReadFile`: reading a file that exists never fails in the model; an existing file that cannot be read (no read permission, a directory, an I/O error) is not modelled, and `GeneralConfigFile.SetSurvivesRestart` relies on this.
- `AddonConfigFile.AddonConfig.Set and GeneralConfigFile.GeneralConfig.Set`: the model's maps are values. In Go a map is shared by reference, and `Values` is exported, so a map shared between two stores or between two categories sees every write through either (addon_config.go:87, general_config.go:86). A nil inner map put into an addon store's `Values` makes addon_config.go:87 panic. The model has neither case; the stores' own code never creates them.
- File permissions (0644, 0755), partial writes and `os.Stat` errors other than "does not exist": the file system is the map of documents and the set of paths where writes fail.
- `VerifyOrCreateDirectory` (home_config.go:152-172) and the XDG directory lookup (home_config.go:80): `Config.Load` takes the first config directory as a string and the directory check as a function from path to error.
- `homeConfig.Config.Save` (home_config.go:118-148): it writes an empty list of lines under `$HOME/.config`, which is I/O only.
- The unreachable file parsing after the early return in `Config.Load` (home_config.go:97-113), and the printing in home_config.go:94 and addon_config.go:62.
- config.go (does not compile), config_file.go (an interface with no behaviour) and cfgedit/main.go (command-line glue) are not part of this model.
- Error values carry the path or name the source puts in its message; the text of I/O errors produced by the operating system is not modelled.
- Go strings are byte strings decoded as UTF-8 by `strings.TrimSpace`; the model works on sequences of code points, so invalid UTF-8 is not modelled.
- Concurrent use of one store is not modelled; the source has no locking.

=== FILE: addon_config.dfy ===
/**
 * An additional config file: values grouped by category, a two-level map
 * `category -> key -> value`. `Set` follows the general store's
 * write-through-and-undo protocol; `Save` writes an empty file and `Load`
 * only checks that the file can be read, since neither encodes the values.
 */
module AddonConfigFile {
  import opened Errors
  import opened Text
  import opened Paths
  import opened Files

  /** The inner map of `category`, or the empty map when there is none. */
  function Inner(values: map<string, map<string, string>>, category: string): map<string, string>
  {
    if category in values then values[category] else map[]
  }

  /**
   * The two-level zero-value read: "" when the category is absent, else the
   * inner map's value, which is "" when the key is absent.
   */
  function Lookup(values: map<string, map<string, string>>, category: string, k: string): (r: string)
    ensures category !in values ==> r == ""
    ensures category in values && k in values[category] ==> r == values[category][k]
    ensures category in values && k !in values[category] ==> r == ""
  {
    if category !in values then ""
    else if k in values[category] then values[category][k]
    else ""
  }

  /**
   * Writing `x` under (`category`, `k`), creating the inner map if needed,
   * makes that entry read `x` and leaves every other entry, in every
   * category, reading as before.
   */
  lemma SetLeavesOtherEntries(values: map<string, map<string, string>>, category: string, k: string, x: string)
    ensures var after := values[category := Inner(values, category)[k := x]];
            && Lookup(after, category, k) == x
            && forall c, k' :: c != category || k' != k ==> Lookup(after, c, k') == Lookup(values, c, k')
  {
  }

  /**
   * Creating the inner map of `category` when it is missing and then writing
   * `x` (and then `y`) under `k` amounts to one update of the original map.
   */
  lemma WriteEntry(values: map<string, map<string, string>>, category: string, k: string, x: string, y: string)
    ensures var created := if category in values then values else values[category := map[]];
            var once := created[category := created[category][k := x]];
            && once == values[category := Inner(values, category)[k := x]]
            && once[category := once[category][k := y]] == values[category := Inner(values, category)[k := y]]
  {
    var created := if category in values then values else values[category := map[]];
    assert created[category] == Inner(values, category);
    assert created[category][k := x][k := y] == Inner(values, category)[k := y];
  }

  /**
   * `Load` as a function of the identity and the file system: it refuses a
   * blank name or path before reading, otherwise succeeds exactly when the
   * file exists. It has no decoded value, so it cannot change `Values`.
   */
  function LoadOutcome(name: string, path: string, files: map<string, Document>): (r: Option<Error>)
    ensures IsBlank(name) || IsBlank(path) ==> r == Some(InvalidConfigFileName(FullPath(path, name)))
    ensures r.None? <==> !IsBlank(name) && !IsBlank(path) && FullPath(path, name) in files
  {
    TrimSpaceEmptyIff(name);
    TrimSpaceEmptyIff(path);
    var full := FullPath(path, name);
    if TrimSpace(name) == "" || TrimSpace(path) == "" then Some(InvalidConfigFileName(full))
    else if full !in files then Some(ReadFailed(full))
    else None
  }

  class AddonConfig {
    var name: string
    var path: string
    /** Not persisted: neither `Save` nor `Load` encodes it. */
    var values: map<string, map<string, string>>
    /** The file system the store reads and writes. */
    const fs: FileSystem

    /** The struct literal with an empty `Values` map. */
    constructor (name: string, path: string, fs: FileSystem)
      ensures this.name == name && this.path == path && this.fs == fs
      ensures values == map[]
    {
      this.name := name;
      this.path := path;
      this.fs := fs;
      values := map[];
    }

    /**
     * `NewAddonConfig`: starts with no categories, saves (an empty file) when
     * none exists, then loads. The store is returned, still empty, even on error.
     */
    static method NewAddonConfig(name: string, path: string, fs: FileSystem)
      returns (af: AddonConfig, err: Option<Error>)
      modifies fs`files
      ensures fresh(af) && af.fs == fs && af.name == name && af.path == path
      ensures af.values == map[]
      ensures var full := FullPath(path, name);
              if full in old(fs.files) then
                fs.files == old(fs.files) && err == LoadOutcome(name, path, fs.files)
              else if full in fs.readOnly then
                fs.files == old(fs.files) && err == Some(WriteFailed(full))
              else
                fs.files == old(fs.files)[full := Blank] && err == LoadOutcome(name, path, fs.files)
    {
      af := new AddonConfig(name, path, fs);
      var present := fs.Exists(af.GetFullPath());
      if !present {
        err := af.Save();
        if err.Some? {
          return;
        }
      }
      err := af.Load();
    }

    function GetName(): (r: string)
      reads this
      ensures r == name
    {
      name
    }

    function GetPath(): (r: string)
      reads this
      ensures r == path
    {
      path
    }

    /** The file this store reads and writes: `<Path>/<Name>.conf`. */
    function GetFullPath(): (r: string)
      reads this
      ensures r == FullPath(path, name)
    {
      FullPath(path, name)
    }

    /** Refuses a blank name or path, then only checks that the file can be read. */
    method Load() returns (err: Option<Error>)
      ensures err == LoadOutcome(name, path, fs.files)
    {
      if TrimSpace(name) == "" || TrimSpace(path) == "" {
        return Some(InvalidConfigFileName(GetFullPath()));
      }
      var data := fs.ReadFile(GetFullPath());
      if data.Err? {
        return Some(data.error);
      }
      err := None;
    }

    /** Writes an empty file: the values are not encoded. */
    method Save() returns (err: Option<Error>)
      modifies fs`files
      ensures err.None? <==> GetFullPath() !in fs.readOnly
      ensures err.Some? ==> err.value == WriteFailed(GetFullPath()) && fs.files == old(fs.files)
      ensures err.None? ==> fs.files == old(fs.files)[GetFullPath() := Blank]
    {
      err := fs.WriteFile(GetFullPath(), Blank);
    }

    /**
     * Makes sure `category` has an inner map, stores `v` under `k` in it and
     * saves; when the save fails, puts back the value `Get` had before but
     * keeps the inner map it created.
     */
    method Set(category: string, k: string, v: string) returns (err: Option<Error>)
      modifies this`values, fs`files
      ensures category in values
      ensures err.None? <==> GetFullPath() !in fs.readOnly
      ensures values == old(values)[category :=
                          Inner(old(values), category)[k := if err.None? then v else old(Get(category, k))]]
      ensures err.None? ==> Get(category, k) == v
      ensures err.Some? ==> Get(category, k) == old(Get(category, k))
      ensures err.Some? ==> err.value == WriteFailed(GetFullPath()) && fs.files == old(fs.files)
      ensures err.None? ==> fs.files == old(fs.files)[GetFullPath() := Blank]
    {
      WriteEntry(values, category, k, v, Get(category, k));
      if category !in values {
        values := values[category := map[]];
      }
      var oldVal := Get(category, k);
      values := values[category := values[category][k := v]];
      err := Save();
      if err.Some? {
        values := values[category := values[category][k := oldVal]];
      }
    }

    /** Go's zero-value reads through both levels of the map. */
    function Get(category: string, k: string): (r: string)
      reads this
      ensures r == Lookup(values, category, k)
    {
      Lookup(values, category, k)
    }
  }
}

=== FILE: errors.dfy ===
/** Failure values shared by the three configuration stores. */
module Errors {

  datatype Option<+T> = None | Some(value: T)

  datatype Result<+T> = Ok(value: T) | Err(error: Error)

  /** The errors the stores return; each carries the text Go puts in its message. */
  datatype Error =
    | InvalidConfigFileName(fullPath: string)  // blank Name or Path when loading a config file
    | InvalidConfigName(name: string)          // blank name when loading a home Config
    | ConfigFileNotFound(name: string)         // no `<name>.conf` entry in a home Config
    | ReadFailed(path: string)                 // reading the file failed (it does not exist)
    | WriteFailed(path: string)                // writing the file failed
    | DecodeFailed(path: string)               // the file is not a valid document
  {
    /**
     * The message text of the errors whose text the stores build themselves;
     * for an error from the operating system or the decoder, only the path it
     * names (their own wording is not modelled).
     */
    function Message(): string
    {
      match this
      case InvalidConfigFileName(p) => "Invalid ConfigFile Name: " + p
      case InvalidConfigName(n) => "Invalid Config Name: " + n
      case ConfigFileNotFound(n) => "Couldn't find " + n + ".config file"
      case ReadFailed(p) => p
      case WriteFailed(p) => p
      case DecodeFailed(p) => p
    }
  }
}

=== FILE: files.dfy ===
/**
 * The file system as the stores see it: the documents stored at each path,
 * and the paths where a write fails. Reading, writing and probing a file are
 * the only I/O the stores perform.
 */
module Files {
  import opened Errors

  /**
   * A config file as its decoder sees it: empty, an encoded document with the
   * two persisted sections, or text that does not decode.
   */
  datatype Document =
    | Blank
    | Encoded(additionalConfig: seq<string>, general: map<string, string>)
    | Malformed

  class FileSystem {
    /** The decoded content of every file that exists. */
    var files: map<string, Document>
    /** The paths where writing fails (read-only directory, full disk, ...). */
    var readOnly: set<string>

    constructor (files: map<string, Document>, readOnly: set<string>)
      ensures this.files == files && this.readOnly == readOnly
    {
      this.files := files;
      this.readOnly := readOnly;
    }

    /** Whether a file exists at `p` (`os.Stat` without `IsNotExist`). */
    method Exists(p: string) returns (b: bool)
      ensures b <==> p in files
    {
      b := p in files;
    }

    /** `ioutil.ReadFile`: the content at `p`, or an error when nothing is there. */
    method ReadFile(p: string) returns (r: Result<Document>)
      ensures r.Ok? <==> p in files
      ensures r.Ok? ==> r.value == files[p]
      ensures r.Err? ==> r.error == ReadFailed(p)
    {
      if p in files {
        r := Ok(files[p]);
      } else {
        r := Err(ReadFailed(p));
      }
    }

    /**
     * `ioutil.WriteFile`: replaces the content at `p` with `d`, or fails and
     * leaves every file as it was.
     */
    method WriteFile(p: string, d: Document) returns (err: Option<Error>)
      modifies this`files
      ensures err.None? <==> p !in readOnly
      ensures err.Some? ==> err.value == WriteFailed(p) && files == old(files)
      ensures err.None? ==> files == old(files)[p := d]
    {
      if p in readOnly {
        err := Some(WriteFailed(p));
      } else {
        files := files[p := d];
        err := None;
      }
    }
  }
}

=== FILE: general_config.dfy ===
/**
 * The general config file: a flat key/value map and a registry of additional
 * config file names, persisted together at `<Path>/<Name>.conf`. Every `Set`
 * is written through to disk and undone in memory when the write fails.
 */
module GeneralConfigFile {
  import opened Errors
  import opened Text
  import opened Paths
  import opened Files

  /** What `Load` leaves behind: its error and the two decoded fields. */
  datatype Loaded = Loaded(err: Option<Error>, configFiles: seq<string>, values: map<string, string>)

  /**
   * `Load` as a function of the identity (`name`, `path`), the file system and
   * the in-memory fields it decodes into. A blank name or path is refused
   * before any file is read; every failure leaves the fields as they were.
   * The decoder replaces the `ConfigFiles` slice but adds the decoded
   * `general` entries to the `Values` map already there, so no key is lost.
   */
  function LoadOutcome(name: string, path: string, files: map<string, Document>,
                       configFiles: seq<string>, values: map<string, string>): (r: Loaded)
    ensures IsBlank(name) || IsBlank(path) ==>
              r == Loaded(Some(InvalidConfigFileName(FullPath(path, name))), configFiles, values)
    ensures r.err.None? ==> !IsBlank(name) && !IsBlank(path) && FullPath(path, name) in files
    ensures r.err.Some? ==> r.configFiles == configFiles && r.values == values
    ensures forall k :: k in values ==> k in r.values
  {
    TrimSpaceEmptyIff(name);
    TrimSpaceEmptyIff(path);
    var full := FullPath(path, name);
    if TrimSpace(name) == "" || TrimSpace(path) == "" then
      Loaded(Some(InvalidConfigFileName(full)), configFiles, values)
    else if full !in files then
      Loaded(Some(ReadFailed(full)), configFiles, values)
    else
      match files[full]
      case Malformed => Loaded(Some(DecodeFailed(full)), configFiles, values)
      case Blank => Loaded(None, configFiles, values)
      case Encoded(cf, vs) => Loaded(None, cf, values + vs)
  }

  /**
   * What one store saves, another store with the same identity loads back:
   * the saved registry, and the saved values over the map it already held,
   * so a key only that store held survives. A fresh store (empty map) gets
   * exactly the saved values.
   */
  lemma LoadAfterSave(name: string, path: string, files: map<string, Document>,
                      saved: seq<string>, savedValues: map<string, string>,
                      held: seq<string>, heldValues: map<string, string>)
    requires !IsBlank(name) && !IsBlank(path)
    ensures var r := LoadOutcome(name, path, files[FullPath(path, name) := Encoded(saved, savedValues)],
                                 held, heldValues);
            && r.err == None && r.configFiles == saved
            && (forall k :: k in savedValues ==> k in r.values && r.values[k] == savedValues[k])
            && (forall k :: k in heldValues && k !in savedValues ==> k in r.values && r.values[k] == heldValues[k])
            && (forall k :: k in r.values ==> k in savedValues || k in heldValues)
            && (heldValues == map[] ==> r.values == savedValues)
  {
    TrimSpaceEmptyIff(name);
    TrimSpaceEmptyIff(path);
  }

  /**
   * Loading again what was just loaded changes nothing: the registry is the
   * file's again and the decoded values are already in the map. So a store
   * that `NewGeneralConfig` returned and that is loaded once more stays as it was.
   */
  lemma LoadTwice(name: string, path: string, files: map<string, Document>,
                  configFiles: seq<string>, values: map<string, string>)
    ensures var l := LoadOutcome(name, path, files, configFiles, values);
            LoadOutcome(name, path, files, l.configFiles, l.values) == l
  {
  }

  class GeneralConfig {
    var name: string
    var path: string
    /** Persisted as `additional_config`. */
    var configFiles: seq<string>
    /** Persisted as `general`. */
    var values: map<string, string>
    /** The file system the store reads and writes. */
    const fs: FileSystem

    /** The struct literal with empty `ConfigFiles` and `Values`. */
    constructor (name: string, path: string, fs: FileSystem)
      ensures this.name == name && this.path == path && this.fs == fs
      ensures configFiles == [] && values == map[]
    {
      this.name := name;
      this.path := path;
      this.fs := fs;
      configFiles := [];
      values := map[];
    }

    /**
     * `NewGeneralConfig`: starts empty, saves first when no file exists (before
     * the name is validated), then loads. The store is returned even on error.
     */
    static method NewGeneralConfig(name: string, path: string, fs: FileSystem)
      returns (gf: GeneralConfig, err: Option<Error>)
      modifies fs`files
      ensures fresh(gf) && gf.fs == fs && gf.name == name && gf.path == path
      ensures var full := FullPath(path, name);
              if full in old(fs.files) then
                && fs.files == old(fs.files)
                && Loaded(err, gf.configFiles, gf.values) == LoadOutcome(name, path, fs.files, [], map[])
              else if full in fs.readOnly then
                && fs.files == old(fs.files)
                && err == Some(WriteFailed(full)) && gf.configFiles == [] && gf.values == map[]
              else
                && fs.files == old(fs.files)[full := Encoded([], map[])]
                && Loaded(err, gf.configFiles, gf.values) == LoadOutcome(name, path, fs.files, [], map[])
    {
      gf := new GeneralConfig(name, path, fs);
      var present := fs.Exists(gf.GetFullPath());
      if !present {
        err := gf.Save();
        if err.Some? {
          return;
        }
      }
      err := gf.Load();
    }

    function GetName(): (r: string)
      reads this
      ensures r == name
    {
      name
    }

    function GetPath(): (r: string)
      reads this
      ensures r == path
    {
      path
    }

    /** The file this store reads and writes: `<Path>/<Name>.conf`. */
    function GetFullPath(): (r: string)
      reads this
      ensures r == FullPath(path, name)
    {
      FullPath(path, name)
    }

    /**
     * Refuses a blank name or path without reading anything; otherwise reads
     * and decodes the file into `ConfigFiles` and, adding to what is there,
     * `Values`. Never touches
     * `Name` or `Path`.
     */
    method Load() returns (err: Option<Error>)
      modifies this`configFiles, this`values
      ensures Loaded(err, configFiles, values)
              == LoadOutcome(name, path, fs.files, old(configFiles), old(values))
    {
      if TrimSpace(name) == "" || TrimSpace(path) == "" {
        return Some(InvalidConfigFileName(GetFullPath()));
      }
      var data := fs.ReadFile(GetFullPath());
      if data.Err? {
        return Some(data.error);
      }
      match data.value
      case Malformed =>
        err := Some(DecodeFailed(GetFullPath()));
      case Blank =>
        err := None;
      case Encoded(cf, vs) =>
        configFiles, values := cf, values + vs;
        err := None;
    }

    /** Writes `ConfigFiles` and `Values` (and nothing else) to the config file. */
    method Save() returns (err: Option<Error>)
      modifies fs`files
      ensures err.None? <==> GetFullPath() !in fs.readOnly
      ensures err.Some? ==> err.value == WriteFailed(GetFullPath()) && fs.files == old(fs.files)
      ensures err.None? ==> fs.files == old(fs.files)[GetFullPath() := Encoded(configFiles, values)]
    {
      err := fs.WriteFile(GetFullPath(), Encoded(configFiles, values));
    }

    /**
     * Stores `v` under `k` and saves; when the save fails, puts back the value
     * `Get(k)` had before, so an absent key ends up mapped to "".
     */
    method Set(k: string, v: string) returns (err: Option<Error>)
      modifies this`values, fs`files
      ensures err.None? <==> GetFullPath() !in fs.readOnly
      ensures values == old(values)[k := if err.None? then v else old(Get(k))]
      ensures err.None? ==> Get(k) == v
      ensures err.Some? ==> Get(k) == old(Get(k))
      ensures forall k' :: k' != k ==> (k' in values <==> k' in old(values)) && Get(k') == old(Get(k'))
      ensures err.Some? ==> err.value == WriteFailed(GetFullPath()) && fs.files == old(fs.files)
      ensures err.None? ==> fs.files == old(fs.files)[GetFullPath() := Encoded(configFiles, values)]
    {
      var oldVal := Get(k);
      values := values[k := v];
      err := Save();
      if err.Some? {
        values := values[k := oldVal];
      }
    }

    /** Go's zero-value map read: the stored value, or "" for an absent key. */
    function Get(k: string): (r: string)
      reads this
      ensures k in values ==> r == values[k]
      ensures k !in values ==> r == ""
    {
      if k in values then values[k] else ""
    }

    /** Whether `n` is registered in `ConfigFiles`. */
    method HasConfigFile(n: string) returns (b: bool)
      ensures b <==> n in configFiles
    {
      var i := 0;
      while i < |configFiles|
        invariant 0 <= i <= |configFiles|
        invariant n !in configFiles[..i]
      {
        if configFiles[i] == n {
          return true;
        }
        i := i + 1;
      }
      return false;
    }
  }

  /**
   * A value set on one store is what a fresh store at the same place reads
   * after it loads, when the file can be written.
   */
  method SetSurvivesRestart(fs: FileSystem, name: string, path: string, k: string, v: string)
    returns (first: GeneralConfig, second: GeneralConfig)
    requires !IsBlank(name) && !IsBlank(path)
    requires FullPath(path, name) !in fs.readOnly
    modifies fs`files
    ensures second.Get(k) == v
  {
    var err;
    first, err := GeneralConfig.NewGeneralConfig(name, path, fs);
    err := first.Set(k, v);
    assert fs.files[FullPath(path, name)] == Encoded(first.configFiles, first.values);
    second, err := GeneralConfig.NewGeneralConfig(name, path, fs);
    LoadAfterSave(name, path, fs.files, first.configFiles, first.values, [], map[]);
  }
}

=== FILE: home_config.dfy ===
/**
 * The older home config: a named `Config` holding a list of `ConfigFile`
 * records, each a key/value map. `Set` and `Get` work on the first record
 * called `<name>.conf`; `Load` clears both collections, checks the name and
 * the directory, and adds nothing.
 */
module HomeConfig {
  import opened Errors
  import opened Text
  import opened Paths

  /**
   * A file of key/value pairs; its map is changed in place. `None` is Go's nil
   * map, which is all that code outside the package can give a record, since
   * the field is unexported.
   */
  class ConfigFile {
    const name: string
    var values: Option<map<string, string>>

    /** The struct literal; `ConfigFile{Name: n}` gives `values == None`. */
    constructor (name: string, values: Option<map<string, string>>)
      ensures this.name == name && this.values == values
    {
      this.name := name;
      this.values := values;
    }

    /**
     * Stores `v` under `k`; no other key changes. Assigning into a nil map
     * panics in Go, so the record must hold a map.
     */
    method Set(k: string, v: string)
      requires values.Some?
      modifies this`values
      ensures values == Some(old(values).value[k := v])
      ensures Get(k) == v
      ensures forall k' :: k' != k ==> (k' in values.value <==> k' in old(values).value) && Get(k') == old(Get(k'))
    {
      values := Some(values.value[k := v]);
    }

    /** Go's zero-value map read: the stored value, or "" for an absent key or a nil map. */
    function Get(k: string): (r: string)
      reads this
      ensures values.None? ==> r == ""
      ensures values.Some? && k in values.value ==> r == values.value[k]
      ensures values.Some? && k !in values.value ==> r == ""
    {
      if values.Some? && k in values.value then values.value[k] else ""
    }
  }

  /**
   * The messages `Load`, `Set` and `Get` build: the not-found message says
   * `<name>.config`, although the record searched for is `<name>.conf`.
   */
  lemma HomeMessages(name: string)
    ensures InvalidConfigName(name).Message() == "Invalid Config Name: " + name
    ensures ConfigFileNotFound(name).Message() == "Couldn't find " + name + ".config file"
    ensures ConfigFileNotFound(name).Message() != "Couldn't find " + name + Extension + " file"
  {
  }

  /** The index of the first record called `target`, if there is one. */
  function FirstNamed(files: seq<ConfigFile>, target: string): (r: Option<nat>)
    ensures r.Some? ==> r.value < |files| && files[r.value].name == target
    ensures r.Some? ==> forall j :: 0 <= j < r.value ==> files[j].name != target
    ensures r.None? <==> forall j :: 0 <= j < |files| ==> files[j].name != target
  {
    if files == [] then None
    else if files[0].name == target then Some(0)
    else match FirstNamed(files[1..], target)
      case None => None
      case Some(i) => Some(i + 1)
  }

  /**
   * `Load` as a function of the name, the first XDG config directory and the
   * directory check: a blank name is refused; otherwise, when the directory is
   * known, the result of checking `<dir>/<name>` is returned.
   */
  function LoadOutcome(name: string, configDir: string, verifyDir: string -> Option<Error>): (r: Option<Error>)
    ensures IsBlank(name) ==> r == Some(InvalidConfigName(name))
    ensures !IsBlank(name) && configDir == "" ==> r == None
    ensures !IsBlank(name) && configDir != "" ==> r == verifyDir(configDir + "/" + name)
  {
    TrimSpaceEmptyIff(name);
    if TrimSpace(name) == "" then Some(InvalidConfigName(name))
    else if configDir != "" then verifyDir(configDir + "/" + name)
    else None
  }

  class Config {
    var name: string
    /** Files that have key/value pairs. */
    var configFiles: seq<ConfigFile>
    /** Other files (databases and the like), by name. */
    var rawFiles: map<string, string>

    /** The struct literal: only the name is set. */
    constructor (name: string)
      ensures this.name == name && configFiles == [] && rawFiles == map[]
    {
      this.name := name;
      configFiles := [];
      rawFiles := map[];
    }

    /** `NewConfig`: builds the config and loads it; on error no config is returned. */
    static method NewConfig(name: string, configDir: string, verifyDir: string -> Option<Error>)
      returns (c: Config?, err: Option<Error>)
      ensures err == LoadOutcome(name, configDir, verifyDir)
      ensures c == null <==> err.Some?
      ensures c != null ==> fresh(c) && c.name == name && c.configFiles == [] && c.rawFiles == map[]
    {
      c := new Config(name);
      err := c.Load(configDir, verifyDir);
      if err.Some? {
        c := null;
      }
    }

    /**
     * Sets `k` to `v` in the first record called `<name>.conf`, changing no
     * other record; fails and changes nothing when there is none. Like
     * `ConfigFile.Set`, it needs that record to hold a map.
     */
    method Set(k: string, v: string) returns (err: Option<Error>)
      requires FirstNamed(configFiles, name + Extension).Some? ==>
                 configFiles[FirstNamed(configFiles, name + Extension).value].values.Some?
      modifies configFiles
      ensures match FirstNamed(configFiles, name + Extension)
              case None =>
                err == Some(ConfigFileNotFound(name)) && unchanged(configFiles)
              case Some(i) =>
                && err == None
                && configFiles[i].values == Some(old(configFiles[i].values).value[k := v])
                && forall j :: 0 <= j < |configFiles| && configFiles[j] != configFiles[i] ==> unchanged(configFiles[j])
    {
      var i := 0;
      while i < |configFiles|
        invariant 0 <= i <= |configFiles|
        invariant forall j :: 0 <= j < i ==> configFiles[j].name != name + Extension
        invariant unchanged(configFiles)
      {
        if configFiles[i].name == name + Extension {
          configFiles[i].Set(k, v);
          return None;
        }
        i := i + 1;
      }
      return Some(ConfigFileNotFound(name));
    }

    /**
     * The value of `k` in the first record called `<name>.conf`, or "" and an
     * error when there is none.
     */
    method Get(k: string) returns (v: string, err: Option<Error>)
      ensures match FirstNamed(configFiles, name + Extension)
              case None => v == "" && err == Some(ConfigFileNotFound(name))
              case Some(i) => v == configFiles[i].Get(k) && err == None
    {
      var i := 0;
      while i < |configFiles|
        invariant 0 <= i <= |configFiles|
        invariant forall j :: 0 <= j < i ==> configFiles[j].name != name + Extension
      {
        if configFiles[i].name == name + Extension {
          return configFiles[i].Get(k), None;
        }
        i := i + 1;
      }
      return "", Some(ConfigFileNotFound(name));
    }

    /**
     * Empties `ConfigFiles` and `RawFiles` first, then refuses a blank name
     * and checks the directory; it never adds a record.
     */
    method Load(configDir: string, verifyDir: string -> Option<Error>) returns (err: Option<Error>)
      modifies this`configFiles, this`rawFiles
      ensures configFiles == [] && rawFiles == map[]
      ensures err == LoadOutcome(name, configDir, verifyDir)
    {
      configFiles := configFiles[..0];
      rawFiles := map[];
      if TrimSpace(name) == "" {
        return Some(InvalidConfigName(name));
      }
      var cfgPath := configDir;
      if cfgPath != "" {
        cfgPath := cfgPath + "/" + name;
        var dirErr := verifyDir(cfgPath);
        if dirErr.Some? {
          return dirErr;
        }
        cfgPath := cfgPath + "/" + name + Extension;
      }
      return None;
    }
  }
}

=== FILE: paths.dfy ===
/** The file name every store writes to: `<path>/<name>.conf`. */
module Paths {
  import opened Errors

  const Extension: string := ".conf"

  /** The full path of a config file: `<dir>/<name>.conf`. */
  function FullPath(dir: string, name: string): string
  {
    dir + "/" + name + Extension
  }

  /**
   * The full path is the directory, a slash, the name and the `.conf`
   * extension, in that order and with nothing else.
   */
  lemma FullPathShape(dir: string, name: string)
    ensures var r := FullPath(dir, name);
            && |r| == |dir| + 1 + |name| + |Extension|
            && r[..|dir| + 1] == dir + "/"
            && r[|dir| + 1..|r| - |Extension|] == name
            && r[|r| - |Extension|..] == Extension
  {
  }

  /**
   * The inverse of `FullPath` for a known directory: the name part of
   * `full`, when `full` lies in `dir` and ends in `.conf`.
   */
  function NameOf(dir: string, full: string): (r: Option<string>)
    ensures r.Some? ==> |r.value| == |full| - |dir| - 1 - |Extension|
  {
    if |full| >= |dir| + 1 + |Extension| && full[..|dir| + 1] == dir + "/"
       && full[|full| - |Extension|..] == Extension
    then Some(full[|dir| + 1..|full| - |Extension|])
    else None
  }

  /** The name is recovered from the full path it produces. */
  lemma NameOfFullPath(dir: string, name: string)
    ensures NameOf(dir, FullPath(dir, name)) == Some(name)
  {
    FullPathShape(dir, name);
  }

  /** Any path `NameOf` accepts is the full path of the name it finds. */
  lemma FullPathOfName(dir: string, full: string)
    requires NameOf(dir, full).Some?
    ensures FullPath(dir, NameOf(dir, full).value) == full
  {
    var name := NameOf(dir, full).value;
    var k := |dir| + 1;
    var e := |full| - |Extension|;
    assert full == full[..k] + full[k..e] + full[e..];
  }

  /**
   * The message of a refused load names the full path, so it reads
   * `Invalid ConfigFile Name: <dir>/<name>.conf`.
   */
  lemma InvalidConfigFileNameMessage(dir: string, name: string)
    ensures InvalidConfigFileName(FullPath(dir, name)).Message()
            == "Invalid ConfigFile Name: " + dir + "/" + name + ".conf"
  {
  }

  /** Within one directory, distinct names give distinct full paths. */
  lemma FullPathInjective(dir: string, a: string, b: string)
    requires FullPath(dir, a) == FullPath(dir, b)
    ensures a == b
  {
    NameOfFullPath(dir, a);
    NameOfFullPath(dir, b);
  }
}

=== FILE: text.dfy ===
/**
 * Go's notion of white space and `strings.TrimSpace`, which every store uses
 * to reject a blank name or path.
 */
module Text {

  /** Go's `unicode.IsSpace`: the Latin-1 spaces and the Unicode White_Space characters. */
  predicate IsSpace(c: char)
  {
    || c == ' ' || c == '\t' || c == '\n' || c == '\U{000B}' || c == '\U{000C}' || c == '\r'
    || c == '\U{0085}' || c == '\U{00A0}' || c == '\U{1680}'
    || ('\U{2000}' <= c <= '\U{200A}')
    || c == '\U{2028}' || c == '\U{2029}' || c == '\U{202F}' || c == '\U{205F}' || c == '\U{3000}'
  }

  /** Every character of `s` is white space (the empty string included). */
  predicate IsBlank(s: string)
  {
    forall i :: 0 <= i < |s| ==> IsSpace(s[i])
  }

  /** The number of white-space characters `s` starts with. */
  function LeadingSpace(s: string): (n: nat)
    ensures n <= |s|
    ensures forall i :: 0 <= i < n ==> IsSpace(s[i])
    ensures n < |s| ==> !IsSpace(s[n])
  {
    if s == [] || !IsSpace(s[0]) then 0 else 1 + LeadingSpace(s[1..])
  }

  /** The number of white-space characters `s` ends with. */
  function TrailingSpace(s: string): (n: nat)
    ensures n <= |s|
    ensures forall i :: |s| - n <= i < |s| ==> IsSpace(s[i])
    ensures n < |s| ==> !IsSpace(s[|s| - 1 - n])
  {
    if s == [] || !IsSpace(s[|s| - 1]) then 0 else 1 + TrailingSpace(s[..|s| - 1])
  }

  /** `strings.TrimLeftFunc(s, unicode.IsSpace)`: drops the leading white space. */
  function TrimLeft(s: string): string
  {
    s[LeadingSpace(s)..]
  }

  /** `strings.TrimRightFunc(s, unicode.IsSpace)`: drops the trailing white space. */
  function TrimRight(s: string): string
  {
    s[..|s| - TrailingSpace(s)]
  }

  /**
   * `strings.TrimSpace`, which trims the left end and then the right end: the
   * result is the part of `s` between a blank prefix and a blank suffix, and
   * it is empty or begins and ends with a non-space.
   */
  function TrimSpace(s: string): (r: string)
    ensures LeadingSpace(s) + |r| <= |s|
    ensures r == s[LeadingSpace(s)..LeadingSpace(s) + |r|]
    ensures IsBlank(s[..LeadingSpace(s)]) && IsBlank(s[LeadingSpace(s) + |r|..])
    ensures r != [] ==> !IsSpace(r[0]) && !IsSpace(r[|r| - 1])
  {
    var t := TrimLeft(s);
    assert t != [] ==> t[0] == s[LeadingSpace(s)];
    TrimRight(t)
  }

  /** `strings.TrimSpace(s) == ""` holds exactly when `s` is blank. */
  lemma TrimSpaceEmptyIff(s: string)
    ensures TrimSpace(s) == [] <==> IsBlank(s)
  {
    var n := LeadingSpace(s);
    var t := TrimLeft(s);
    if TrimSpace(s) == [] {
      assert TrailingSpace(t) == |t|;
    } else {
      assert n < |s|;
    }
  }
}
